=== FILE: README.md ===
# Stamp image cache: a Dafny model of the cache and resolution protocol

Stamp serves avatar and token images at requested sizes. Its API router (`src/api.ts`) puts a
two-tier cache in front of a set of resolvers:

- **Key derivation.** A cache key is the SHA-256 digest of the JSON text of
  `{ type, network, address, w, h }`, with the fields always in that order. The *sized* key uses
  the requested width and height. The *base* key uses the configured maximum for both.
- **GET `/:type/:id`.** The handler works through these steps:
  1. Unless the bypass flag `cb` is set, read the sized entry. If it is present, pipe it back and stop.
  2. Otherwise (again unless bypassing) read the base entry.
  3. If the base entry is missing, call every resolver registered for the type and keep the
     **last** truthy answer.
  4. Resize the base image and send the answer.
  5. Only then write the base entry (when it did not come from the cache), followed by the
     sized entry. A failing write skips the rest, and its failure is swallowed.
- **POST `/:type/:id/delete`.** The handler appends the base size to the requested sizes, parses
  each size, and removes the key derived from each one.

The model is purely functional:

- The store is a `map<Key, Bytes>` plus the set of keys whose writes fail.
- The hash, the resizer, the resolvers and the query parser are function-valued inputs. Their
  code is not part of this model.
- The GET handler is a function that returns the response, an ordered trace of events and the
  store the writes leave behind. The events are store reads, resolver calls, the answer and
  store writes.

Modules, one per component:

| file | module | component |
|---|---|---|
| `types.dfy` | `Types` | shared values: bytes, keys, sizes, parsed queries, configuration |
| `json_text.dfy` | `JsonText` | the JSON.stringify string escaping and integer format, with decoders |
| `cache_keys.dfy` | `CacheKeys` | key serialization, its decoder, key identity |
| `resolution.dfy` | `Resolution` | resolver list choice and the last-image fan-out selection |
| `image_pipeline.dfy` | `ImagePipeline` | the GET handler, its trace and the write-back |
| `pipeline_properties.dfy` | `PipelineProperties` | trace projections and the per-scenario guarantees |
| `eviction.dfy` | `Eviction` | the delete handler and how it interacts with GET |

Points of the code the model follows closely:

- **Errors in GET.** The cache reads, the resolver fan-out and the resize are outside any `try`;
  only the write-back (`src/api.ts:86-95`) has one. A failing read, resolver or resize therefore
  does not produce an error response: the handler's promise rejects and nothing is sent. The
  model records this as `Unsent(reason)`, with no writes. What the HTTP framework does with the
  rejection is outside the model.
- **Resolver failures.** The fan-out awaits `Promise.all`, so one rejected resolver promise
  rejects the whole fan-out, even when another resolver produced an image. The model gives
  `Unsent(ResolverRejected)`.
- **Fan-out tie-break.** Each truthy answer overwrites the one kept so far, so the last truthy
  answer in registration order wins.
- **Eviction errors.** The delete handler does not await `remove(key)`, so removal failures never
  reach it. Only a failure of the query parser fails the request. The keys of the other sizes
  are removed anyway, because every per-size task was already started.
- **Eviction key for the base size.** This key comes from running the query parser on
  `{w: max, h: max}`. It equals the GET handler's base key only when the parser returns that size
  unchanged with the same identity. `Eviction.EvictionCoversServedKeys` states this as a
  precondition rather than assuming it.

One consequence of the code worth knowing: when w = h = max and the cache is cold, the base key
and the sized key are the same key. The base write stores the resolver's image, and then the
sized write replaces it with the resized image. `PipelineProperties.CacheWarmsUp` covers this
case too, since the sized entry a later request finds is the answer that was sent. If the
sized write fails after the base write succeeded, the un-resized resolver image stays under that
key; the model cannot express that outcome (see "## Left out").

## Model

| member | source | states |
|---|---|---|
| `JsonText.ParseEscape` | src/api.ts:21 | the string escaping JSON.stringify applies to `type`, `network` and `address` loses nothing: decoding the escaped text up to its closing quote gives back the original string and the text after it |
| `JsonText.ParseQuotedRoundTrip` | src/api.ts:21 | a quoted JSON string followed by any text is read back as exactly that string and that text |
| `JsonText.ParseDecimalRoundTrip` | src/api.ts:21 | the decimal form of `w` and `h`, followed by a non-digit, is read back as the same integer |
| `CacheKeys.DeserializeSerialize` | src/api.ts:40-43 | the JSON text of the key object in its fixed field order (type, network, address, w, h) decodes back to the same five fields |
| `CacheKeys.SerializeInjective` | src/api.ts:40-43 | two key tuples have the same serialized text if and only if they are equal in all five fields |
| `CacheKeys.KeysIdentifyTuples` | src/api.ts:21 | with a collision-free hash, two keys are equal if and only if their (type, network, address, w, h) tuples are equal |
| `CacheKeys.BaseKeyAtMax` | src/api.ts:40-43 | for every hash, the base key does not depend on the requested size, and a request for w = h = max has a sized key equal to its base key |
| `CacheKeys.BaseKeyIsSizedKeyAtMax` | src/api.ts:40-43 | with a collision-free hash, the base key equals the sized key only when w = h = max |
| `Resolution.SelectBaseIsLastImage` | src/api.ts:71-73 | the base image is absent exactly when no resolver returned an image; otherwise it is the image of the last resolver in registration order that returned one |
| `ImagePipeline.WriteBack` | src/api.ts:86-95 | the writes are attempted in order, each recorded with its outcome; every write before the last attempted one succeeded; if the sequence stops early, the last attempted write failed |
| `ImagePipeline.WriteBackStore` | src/api.ts:86-95 | every successful write that no later successful write to the same key overrides is what the store holds afterwards, so with two distinct keys both writes land; when no key fails, every write is attempted; no key outside the write list changes |
| `ImagePipeline.WriteBackLands` | src/api.ts:86-95 | a successful write not overridden by a later successful write to the same key is what the store holds |
| `ImagePipeline.ServeMiss` | src/api.ts:62-95 | after a sized-cache miss, any answer comes before every write; writes go only to the base or the sized key, and every other store entry keeps its value; an unanswered request changes nothing in the store |
| `ImagePipeline.ServeImage` | src/api.ts:35-96 | the trace contains an answer exactly when the response was sent, and that answer is the response; every write comes after every other event; only the base and the sized key can be written, and every other store entry keeps its value; a request that fails to parse does nothing |
| `PipelineProperties.MissTrace` | src/api.ts:62-74 | after a sized-cache miss, the sized key and then the base key are read (neither under bypass); every read comes before every resolver call; each call carries the request's address and network; the resolvers called are the registered ones unless the base entry was cached; nothing is written without an answer |
| `PipelineProperties.SizedCacheShortCircuit` | src/api.ts:51-60 | without the bypass flag, a stored sized entry is answered byte for byte, after exactly one read, with no resolver call, no write and no change to the store |
| `PipelineProperties.BaseCacheHit` | src/api.ts:62-66 | without bypass and with only the base entry stored, no resolver is called; the answer is the resized base image; the only write is to the sized key, and the base entry is not rewritten |
| `PipelineProperties.ResolverPathCalls` | src/api.ts:67-70 | with bypass or a cold cache, every resolver registered for the type is called, in registration order |
| `PipelineProperties.ResolverListByType` | src/api.ts:44-45 | on that path a request of type "token" calls exactly the token resolvers, and a request of any other type, unrecognised ones included, calls exactly the avatar resolvers |
| `PipelineProperties.ResolverCallsCarryQuery` | src/api.ts:69 | every resolver call the GET handler makes is asked about the request's own address and network |
| `PipelineProperties.ResolverPathAnswer` | src/api.ts:67-83 | on that path a rejected call leaves the request unanswered, and so does the absence of any image; otherwise the answer is the resize of the last image in registration order |
| `PipelineProperties.ResolverPathWritesBaseFirst` | src/api.ts:86-95 | on that path an answered request first writes the base key, because no base entry was read; the sized key is written next only if the base write succeeded; nothing else is written |
| `PipelineProperties.ResolverPathStores` | src/api.ts:69-91 | on that path, with distinct base and sized keys and no failing write, an answered request leaves the selected resolver image, not resized, under the base key, and the answer under the sized key |
| `PipelineProperties.BaseServesOtherSizes` | src/api.ts:62-83 | after such a request, a request for the same identity at another size whose sized entry is absent calls no resolver and is answered with the resize of the image the resolvers selected |
| `PipelineProperties.BypassReadsNothing` | src/api.ts:51 | with the bypass flag, no cache tier is read, even when both hold entries |
| `PipelineProperties.ResponseIgnoresWriteFailures` | src/api.ts:83-95 | which store writes fail never changes the response |
| `PipelineProperties.BaseWriteFailureSkipsSizedWrite` | src/api.ts:86-94 | once an answer is sent, a failing base write is the only write attempted; the sized write is skipped and the store is unchanged |
| `PipelineProperties.CacheWarmsUp` | src/api.ts:51-91 | after a sent answer whose writes succeeded, the same request without bypass is answered with the same bytes, with no resolver call and no write |
| `Eviction.Evict` | src/api.ts:13-31 | the size list is never empty, so the length guard always passes (its other branch is unreachable); the request succeeds exactly when every size, the appended base size included, yields a removal key; it fails exactly when some size does not parse |
| `Eviction.RemovalKeysCount` | src/api.ts:17-24 | the removal list has one key per size exactly when every size parses |
| `Eviction.ApplyRemovals` | src/api.ts:22 | after the removals, no selected key is in the store and every other entry is unchanged |
| `Eviction.RemovalKeysWhenAllParsed` | src/api.ts:17-24 | when every size parses, the removal list has one key per size, in order, each derived from that size's parsed query |
| `Eviction.RemovalKeysExact` | src/api.ts:17-24 | a key is selected for removal if and only if it is derived from some size whose query parsed |
| `Eviction.EvictionRemovesOnePerSizePlusBase` | src/api.ts:12-24 | the base size is appended even when it was requested already: when every size parses, the removed keys are one per requested size, followed by the base-size key, so evicting one size removes exactly two keys |
| `Eviction.EvictionCoversServedKeys` | src/api.ts:13-22 | if the parser maps a requested size back to a GET's query, and maps the base size to the same identity at max, then that GET's sized key and base key are both removed |
| `Eviction.EvictThenServeResolves` | src/api.ts:13-22 | once such an eviction has landed, the same GET without bypass reads both tiers, finds neither, and calls every registered resolver |

## Left out

- HTTP plumbing is not modelled:
  - Express routing and status codes.
  - The `Content-Type`, `Cache-Control` and `Expires` headers, and with them the TTL constant.
  - The `Expires` value depends on the wall clock.
- The catch-all redirect (`src/api.ts:98-100`) is routing, not logic.
- `sha256`, `resize`, `parseQuery`, `streamToBuffer` and the resolver implementations live in
  modules that are not part of this model. They are inputs to the model:
  - the hash is an arbitrary function;
  - `resize` returns `None` when it throws;
  - a resolver answers `Image`, `Nothing` or `Rejected`.
  
  No claim is made about how sizes are clamped.
- The type of `w` and `h`: the model takes them as non-negative integers, which JSON.stringify
  writes in decimal. Whether `parseQuery` returns numbers or strings is not visible. Integers of
  10^21 and above, which JavaScript writes in exponent notation, are not modelled.
- JSON.stringify's escaping of lone UTF-16 surrogates: Dafny characters are Unicode scalar
  values, so lone surrogates cannot occur.
- Store reads are modelled as never failing. A failing `get` would reject the GET handler, as a
  rejected resolver does. `streamToBuffer` is taken to return the stored bytes.
- A GET whose resolvers all return nothing calls `resize(undefined)`, which is not visible.
  Whether it throws or never settles, nothing is sent and nothing is written. The model records
  this as `Unsent(NoImage)`.
- A delete body without a `sizes` array throws before the `try`. The model takes `sizes` as a list.
- Delete sizes are modelled as pairs of naturals (`Size`), while the body may hold any JSON
  objects. Since the query parser is an input of the model, this loses nothing it proves.
- PipelineProperties.ResolverPathCalls: a synchronous throw while the resolver calls are being
  started is not modelled. A configured name missing from `resolvers` makes `resolvers[r]`
  undefined, so `.map` throws at that element and the later resolvers are never called. A
  resolver that throws instead of returning a promise does the same. The model takes every
  configured name to have an implementation that returns a promise, and records a call for
  each registered resolver.
- ImagePipeline.Storage: whether a store write fails is decided per key, not per call. When
  w = h = max both writes of a cold request go to the same key, so the model cannot express a
  base write that succeeds followed by a sized write that fails. In the code that outcome leaves
  the un-resized resolver image under that key, and later max-size requests are answered with
  those bytes rather than the resized image.
- Concurrency is not modelled:
  - `Promise.all` over resolvers and over removals is modelled as a sequential map; only the
    joined result matters.
  - Races between concurrent requests on the same key are not modelled.
- The outcome of each un-awaited `remove(key)` is not modelled, only the list of keys selected
  for removal.
- `console.log` calls are not modelled.

=== FILE: cache_keys.dfy ===
/** Cache-key derivation: a key is the hash of the JSON text of the object
    `{ type, network, address, w, h }`, fields always in that order. The sized key uses the
    requested dimensions; the base key uses the configured maximum for both. */
module CacheKeys {
  import opened Types
  import opened JsonText

  /** The semantic tuple a key is derived from. */
  datatype KeyFields = KeyFields(kind: string, network: string, address: string, w: nat, h: nat)

  /** The JSON text of the key object, in its one fixed field order. */
  function Serialize(f: KeyFields): string
  {
    "{\"type\":" + (Quote(f.kind) +
    (",\"network\":" + (Quote(f.network) +
    (",\"address\":" + (Quote(f.address) +
    (",\"w\":" + (Decimal(f.w) +
    (",\"h\":" + (Decimal(f.h) + "}")))))))))
  }

  /** Removes the literal `p` from the front of `s`. */
  function StripPrefix(p: string, s: string): (r: Option<string>)
    ensures r.Some? ==> s == p + r.value
  {
    if |p| <= |s| && s[..|p|] == p then Some(s[|p|..]) else None
  }

  lemma StripPrefixOf(p: string, t: string)
    ensures StripPrefix(p, p + t) == Some(t)
  {
    assert (p + t)[..|p|] == p;
    assert (p + t)[|p|..] == t;
  }

  /** Reads the key object back from its JSON text: the partner of `Serialize`. */
  function Deserialize(s: string): Option<KeyFields>
  {
    match StripPrefix("{\"type\":", s)
    case None => None
    case Some(s1) =>
      match ParseQuoted(s1)
      case None => None
      case Some((kind, s2)) =>
        match StripPrefix(",\"network\":", s2)
        case None => None
        case Some(s3) =>
          match ParseQuoted(s3)
          case None => None
          case Some((network, s4)) =>
            match StripPrefix(",\"address\":", s4)
            case None => None
            case Some(s5) =>
              match ParseQuoted(s5)
              case None => None
              case Some((address, s6)) =>
                match StripPrefix(",\"w\":", s6)
                case None => None
                case Some(s7) =>
                  match ParseNatural(s7)
                  case None => None
                  case Some((w, s8)) =>
                    match StripPrefix(",\"h\":", s8)
                    case None => None
                    case Some(s9) =>
                      match ParseNatural(s9)
                      case None => None
                      case Some((h, s10)) =>
                        if s10 == "}" then Some(KeyFields(kind, network, address, w, h)) else None
  }

  /** The serialization round trip: the JSON text of a key object determines every field. */
  lemma DeserializeSerialize(f: KeyFields)
    ensures Deserialize(Serialize(f)) == Some(f)
  {
    var t9 := Decimal(f.h) + "}";
    var t8 := ",\"h\":" + t9;
    var t7 := Decimal(f.w) + t8;
    var t6 := ",\"w\":" + t7;
    var t5 := Quote(f.address) + t6;
    var t4 := ",\"address\":" + t5;
    var t3 := Quote(f.network) + t4;
    var t2 := ",\"network\":" + t3;
    var t1 := Quote(f.kind) + t2;
    assert Serialize(f) == "{\"type\":" + t1;
    StripPrefixOf("{\"type\":", t1);
    ParseQuotedRoundTrip(f.kind, t2);
    StripPrefixOf(",\"network\":", t3);
    ParseQuotedRoundTrip(f.network, t4);
    StripPrefixOf(",\"address\":", t5);
    ParseQuotedRoundTrip(f.address, t6);
    StripPrefixOf(",\"w\":", t7);
    ParseDecimalRoundTrip(f.w, t8);
    StripPrefixOf(",\"h\":", t9);
    ParseDecimalRoundTrip(f.h, "}");
  }

  /** Two tuples serialize to the same text only when they are the same tuple. */
  lemma SerializeInjective(f: KeyFields, g: KeyFields)
    ensures Serialize(f) == Serialize(g) <==> f == g
  {
    if Serialize(f) == Serialize(g) {
      DeserializeSerialize(f);
      DeserializeSerialize(g);
    }
  }

  /** The hash collaborator never maps two different texts to one digest (the usual
      idealisation of a cryptographic hash). */
  ghost predicate CollisionFree(hash: string -> Key)
  {
    forall s, t :: hash(s) == hash(t) ==> s == t
  }

  function KeyFor(hash: string -> Key, f: KeyFields): Key
  {
    hash(Serialize(f))
  }

  /** The tuple behind the key of the requested size. */
  function SizedFields(kind: string, q: Query): KeyFields
  {
    KeyFields(kind, q.network, q.address, q.w, q.h)
  }

  /** The tuple behind the base key: the same identity at the maximum size. */
  function BaseFields(cfg: Config, kind: string, q: Query): KeyFields
  {
    KeyFields(kind, q.network, q.address, cfg.max, cfg.max)
  }

  /** With a collision-free hash, keys agree exactly when all five fields agree. */
  lemma KeysIdentifyTuples(hash: string -> Key, f: KeyFields, g: KeyFields)
    requires CollisionFree(hash)
    ensures KeyFor(hash, f) == KeyFor(hash, g) <==> f == g
  {
    SerializeInjective(f, g);
  }

  /** The base key never depends on the requested size, and requesting the maximum size makes
      the sized key the base key; both hold for every hash. */
  lemma BaseKeyAtMax(cfg: Config, hash: string -> Key, kind: string, q: Query, q': Query)
    requires q'.address == q.address && q'.network == q.network
    ensures KeyFor(hash, BaseFields(cfg, kind, q)) == KeyFor(hash, BaseFields(cfg, kind, q'))
    ensures q.w == cfg.max && q.h == cfg.max ==>
      KeyFor(hash, BaseFields(cfg, kind, q)) == KeyFor(hash, SizedFields(kind, q))
  {
  }

  /** With a collision-free hash the base key and the sized key coincide only when the maximum
      size was requested. */
  lemma BaseKeyIsSizedKeyAtMax(cfg: Config, hash: string -> Key, kind: string, q: Query)
    requires CollisionFree(hash)
    ensures KeyFor(hash, BaseFields(cfg, kind, q)) == KeyFor(hash, SizedFields(kind, q)) ==>
      q.w == cfg.max && q.h == cfg.max
  {
    KeysIdentifyTuples(hash, BaseFields(cfg, kind, q), SizedFields(kind, q));
  }
}

=== FILE: eviction.dfy ===
/** The POST /:type/:id/delete handler: the base size is appended to the requested sizes, each
    size goes through the query parser, and the key derived from each parsed size is removed.
    The removals are not awaited, so only the list of keys selected for removal is modelled;
    a parser failure fails the request, but the keys of the sizes that did parse are still
    removed, since every per-size task was already started. */
module Eviction {
  import opened Types
  import opened CacheKeys
  import opened Resolution
  import opened ImagePipeline
  import opened PipelineProperties

  datatype Status = Ok | Failed

  datatype Evicted = Evicted(targets: seq<Size>, removed: seq<Key>, status: Status)

  /** The sizes to evict: the requested ones followed by the base size, which is appended even
      when it was requested already. */
  function Targets(cfg: Config, sizes: seq<Size>): seq<Size>
  {
    sizes + [BaseSize(cfg)]
  }

  /** The keys of the targets whose query parsed, in target order. */
  function RemovalKeys(hash: string -> Key, kind: string, parse: Size -> Option<Query>, targets: seq<Size>)
    : (r: seq<Key>)
    ensures |r| <= |targets|
  {
    if |targets| == 0 then []
    else
      (match parse(targets[0])
       case None => []
       case Some(q) => [KeyFor(hash, SizedFields(kind, q))])
      + RemovalKeys(hash, kind, parse, targets[1..])
  }

  predicate AllParsed(parse: Size -> Option<Query>, targets: seq<Size>)
  {
    forall i | 0 <= i < |targets| :: parse(targets[i]).Some?
  }

  /** The removal list has one key per target exactly when every target parsed, and otherwise
      names a target that did not. */
  lemma {:induction false} RemovalKeysCount(hash: string -> Key, kind: string,
                                           parse: Size -> Option<Query>, targets: seq<Size>)
    ensures |RemovalKeys(hash, kind, parse, targets)| == |targets| <==> AllParsed(parse, targets)
    decreases |targets|
  {
    if |targets| > 0 {
      RemovalKeysCount(hash, kind, parse, targets[1..]);
      if AllParsed(parse, targets) {
        assert AllParsed(parse, targets[1..]) by {
          forall i | 0 <= i < |targets[1..]| ensures parse(targets[1..][i]).Some? {
            assert targets[1..][i] == targets[i + 1];
          }
        }
      } else if parse(targets[0]).Some? {
        var i :| 0 <= i < |targets| && parse(targets[i]).None?;
        assert targets[1..][i - 1] == targets[i];
      }
    }
  }

  /** One delete request for image type `kind`; `parse` is the query parser applied to the
      request's id and one size (`None` when it throws). The length guard always passes, since
      the base size was just appended. */
  function Evict(cfg: Config, hash: string -> Key, kind: string, parse: Size -> Option<Query>, sizes: seq<Size>)
    : (r: Evicted)
    ensures |r.targets| > 0
    ensures r.status == Ok <==> |r.removed| == |sizes| + 1
    ensures r.status == Failed <==> exists i :: 0 <= i < |r.targets| && parse(r.targets[i]).None?
  {
    var targets := Targets(cfg, sizes);
    if |targets| > 0 then
      RemovalKeysCount(hash, kind, parse, targets);
      Evicted(targets, RemovalKeys(hash, kind, parse, targets), if AllParsed(parse, targets) then Ok else Failed)
    else
      assert false;
      Evicted(targets, [], Ok)
  }

  /** The store once every selected removal has landed (removing an absent key is harmless). */
  function ApplyRemovals(entries: map<Key, Bytes>, removed: seq<Key>): (r: map<Key, Bytes>)
    ensures forall i :: 0 <= i < |removed| ==> removed[i] !in r
    ensures forall k :: k in entries && k !in removed ==> k in r && r[k] == entries[k]
    ensures r.Keys <= entries.Keys
  {
    entries - (set i | 0 <= i < |removed| :: removed[i])
  }

  /** The removal list, entry by entry, when every target parsed: one key per target, in order,
      each derived from that target's parsed query. */
  lemma {:induction false} RemovalKeysWhenAllParsed(hash: string -> Key, kind: string,
                                                   parse: Size -> Option<Query>, targets: seq<Size>)
    requires AllParsed(parse, targets)
    ensures var r := RemovalKeys(hash, kind, parse, targets);
      && |r| == |targets|
      && forall i :: 0 <= i < |targets| ==> r[i] == KeyFor(hash, SizedFields(kind, parse(targets[i]).value))
    decreases |targets|
  {
    if |targets| > 0 {
      assert AllParsed(parse, targets[1..]) by {
        forall i | 0 <= i < |targets[1..]| ensures parse(targets[1..][i]).Some? {
          assert targets[1..][i] == targets[i + 1];
        }
      }
      RemovalKeysWhenAllParsed(hash, kind, parse, targets[1..]);
      assert parse(targets[0]).Some?;
    }
  }

  /** Every target whose query parsed has its key in the removal list, and every key in the
      list comes from such a target. */
  lemma {:induction false} RemovalKeysExact(hash: string -> Key, kind: string,
                                           parse: Size -> Option<Query>, targets: seq<Size>)
    ensures forall i :: 0 <= i < |targets| && parse(targets[i]).Some? ==>
      KeyFor(hash, SizedFields(kind, parse(targets[i]).value)) in RemovalKeys(hash, kind, parse, targets)
    ensures forall k :: k in RemovalKeys(hash, kind, parse, targets) ==>
      exists i :: 0 <= i < |targets| && parse(targets[i]).Some?
                  && k == KeyFor(hash, SizedFields(kind, parse(targets[i]).value))
    decreases |targets|
  {
    if |targets| > 0 {
      RemovalKeysExact(hash, kind, parse, targets[1..]);
      var rest := RemovalKeys(hash, kind, parse, targets[1..]);
      forall i | 0 <= i < |targets| && parse(targets[i]).Some?
        ensures KeyFor(hash, SizedFields(kind, parse(targets[i]).value)) in RemovalKeys(hash, kind, parse, targets)
      {
        if i > 0 { assert targets[1..][i - 1] == targets[i]; }
      }
      forall k | k in RemovalKeys(hash, kind, parse, targets)
        ensures exists i :: 0 <= i < |targets| && parse(targets[i]).Some?
                  && k == KeyFor(hash, SizedFields(kind, parse(targets[i]).value))
      {
        if k !in rest {
          assert parse(targets[0]).Some? && k == KeyFor(hash, SizedFields(kind, parse(targets[0]).value));
        } else {
          var j :| 0 <= j < |targets[1..]| && parse(targets[1..][j]).Some?
                   && k == KeyFor(hash, SizedFields(kind, parse(targets[1..][j]).value));
          assert targets[1..][j] == targets[j + 1];
        }
      }
    }
  }

  /** Eviction completeness: when every size parses, exactly one key per requested size is
      removed, followed by the base key, so a request for one size removes exactly two keys. */
  lemma EvictionRemovesOnePerSizePlusBase(cfg: Config, hash: string -> Key, kind: string,
                                          parse: Size -> Option<Query>, sizes: seq<Size>)
    requires AllParsed(parse, sizes) && parse(BaseSize(cfg)).Some?
    ensures var r := Evict(cfg, hash, kind, parse, sizes);
      && r.status == Ok
      && |r.removed| == |sizes| + 1
      && (forall i :: 0 <= i < |sizes| ==> r.removed[i] == KeyFor(hash, SizedFields(kind, parse(sizes[i]).value)))
      && r.removed[|sizes|] == KeyFor(hash, SizedFields(kind, parse(BaseSize(cfg)).value))
  {
    var targets := Targets(cfg, sizes);
    assert AllParsed(parse, targets) by {
      forall i | 0 <= i < |targets| ensures parse(targets[i]).Some? {
        if i < |sizes| { assert targets[i] == sizes[i]; }
      }
    }
    RemovalKeysWhenAllParsed(hash, kind, parse, targets);
    forall i | 0 <= i < |sizes| ensures targets[i] == sizes[i] {
    }
  }

  /** The parser maps size `s` back to the identity and size of query `q`. */
  predicate ParsesTo(parse: Size -> Option<Query>, s: Size, q: Query)
  {
    parse(s).Some? && parse(s).value.address == q.address && parse(s).value.network == q.network
    && parse(s).value.w == q.w && parse(s).value.h == q.h
  }

  /** Eviction covers what a GET stored: if the parser reads the requested size back as the
      GET's query and the base size back as the same identity at the maximum size, both the
      sized key and the base key of that GET are removed, whether or not the request fails. */
  lemma EvictionCoversServedKeys(cfg: Config, env: Env, kind: string, parse: Size -> Option<Query>,
                                 sizes: seq<Size>, i: nat, q: Query)
    requires i < |sizes| && ParsesTo(parse, sizes[i], q)
    requires ParsesTo(parse, BaseSize(cfg), q.(w := cfg.max, h := cfg.max))
    ensures var r := Evict(cfg, env.hash, kind, parse, sizes);
      SizedKey(env, kind, q) in r.removed && BaseKey(cfg, env, kind, q) in r.removed
  {
    var targets := Targets(cfg, sizes);
    RemovalKeysExact(env.hash, kind, parse, targets);
    assert targets[i] == sizes[i];
    assert SizedFields(kind, parse(targets[i]).value) == SizedFields(kind, q);
    assert SizedFields(kind, parse(targets[|sizes|]).value) == BaseFields(cfg, kind, q);
  }

  /** Evict, then serve: after such an eviction has landed, the same GET without the bypass
      flag misses both cache tiers and calls every resolver registered for the type. */
  lemma EvictThenServeResolves(cfg: Config, env: Env, kind: string, parse: Size -> Option<Query>,
                               sizes: seq<Size>, i: nat, q: Query, st: Storage)
    requires i < |sizes| && ParsesTo(parse, sizes[i], q)
    requires ParsesTo(parse, BaseSize(cfg), q.(w := cfg.max, h := cfg.max))
    requires !q.cb
    ensures var removed := Evict(cfg, env.hash, kind, parse, sizes).removed;
      var r := ServeImage(cfg, env, kind, Some(q), st.(entries := ApplyRemovals(st.entries, removed)));
      Reads(r.trace) == [SizedKey(env, kind, q), BaseKey(cfg, env, kind, q)]
      && Calls(r.trace) == ResolversFor(cfg, kind)
  {
    var removed := Evict(cfg, env.hash, kind, parse, sizes).removed;
    var st' := st.(entries := ApplyRemovals(st.entries, removed));
    EvictionCoversServedKeys(cfg, env, kind, parse, sizes, i, q);
    assert SizedKey(env, kind, q) !in st'.entries && BaseKey(cfg, env, kind, q) !in st'.entries;
    MissTrace(cfg, env, kind, q, st');
    ResolverPathCalls(cfg, env, kind, q, st');
  }
}

=== FILE: image_pipeline.dfy ===
/** The GET /:type/:id handler as a pure function over an abstract store. It checks the sized
    cache, then the base cache, then fans out to the resolvers; resizes; answers; and only then
    writes the base entry (unless it came from the cache) followed by the sized entry. The
    result carries the response, the ordered trace of store reads, resolver calls, the answer
    and the store writes, and the store as the writes left it. */
module ImagePipeline {
  import opened Types
  import opened CacheKeys
  import opened Resolution

  /** The collaborators the handler calls but whose code is not modelled: the digest, the
      image resizer (`None` when it throws) and the registered resolvers, by name. */
  datatype Env = Env(
    hash: string -> Key,
    resize: (Bytes, nat, nat) -> Option<Bytes>,
    resolve: (ResolverName, string, string) -> Resolved)

  /** The object store: its entries, and the keys whose `set` fails. */
  datatype Storage = Storage(entries: map<Key, Bytes>, writeFails: set<Key>)

  datatype Event =
    | Get(key: Key)
    | Call(resolver: ResolverName, address: string, network: string)
    | Respond(body: Bytes)
    | Put(key: Key, ok: bool)

  /** Why the handler ended without answering: its promise rejected (or, for a missing base
      image, the resize of `undefined` never produced a buffer). */
  datatype Abort = QueryFailed | ResolverRejected | NoImage | ResizeFailed

  datatype Response = Sent(body: Bytes) | Unsent(reason: Abort)

  datatype Served = Served(response: Response, trace: seq<Event>, entries: map<Key, Bytes>)

  function SizedKey(env: Env, kind: string, q: Query): Key
  {
    KeyFor(env.hash, SizedFields(kind, q))
  }

  function BaseKey(cfg: Config, env: Env, kind: string, q: Query): Key
  {
    KeyFor(env.hash, BaseFields(cfg, kind, q))
  }

  function CallEvents(names: seq<ResolverName>, address: string, network: string): seq<Event>
  {
    seq(|names|, i requires 0 <= i < |names| => Call(names[i], address, network))
  }

  // ---------------------------------------------------------------- write-back

  function WrittenKeys(writes: seq<(Key, Bytes)>): set<Key>
  {
    set i | 0 <= i < |writes| :: writes[i].0
  }

  /** The store writes after the answer, in order. A failing write ends the sequence (the
      remaining writes are skipped) and its failure is swallowed. */
  function WriteBack(entries: map<Key, Bytes>, writeFails: set<Key>, writes: seq<(Key, Bytes)>)
    : (r: (seq<Event>, map<Key, Bytes>))
    ensures |r.0| <= |writes|
    ensures forall i :: 0 <= i < |r.0| ==> r.0[i] == Put(writes[i].0, writes[i].0 !in writeFails)
    ensures forall i :: 0 <= i < |r.0| - 1 ==> r.0[i].ok
    ensures |r.0| < |writes| ==> |r.0| > 0 && !r.0[|r.0| - 1].ok
    decreases |writes|
  {
    if |writes| == 0 then ([], entries)
    else
      var (k, v) := writes[0];
      if k in writeFails then ([Put(k, false)], entries)
      else
        var rest := WriteBack(entries[k := v], writeFails, writes[1..]);
        ([Put(k, true)] + rest.0, rest.1)
  }

  lemma WrittenKeysCons(writes: seq<(Key, Bytes)>)
    requires |writes| > 0
    ensures WrittenKeys(writes) == {writes[0].0} + WrittenKeys(writes[1..])
  {
    forall x | x in WrittenKeys(writes) ensures x in {writes[0].0} + WrittenKeys(writes[1..]) {
      var i :| 0 <= i < |writes| && writes[i].0 == x;
      if i > 0 { assert writes[1..][i - 1].0 == x; }
    }
    forall x | x in WrittenKeys(writes[1..]) ensures x in WrittenKeys(writes) {
      var i :| 0 <= i < |writes[1..]| && writes[1..][i].0 == x;
      assert writes[i + 1].0 == x;
    }
  }

  /** No successful write in `t`, from position `from` on, goes to key `k`. */
  ghost predicate UntouchedFrom(t: seq<Event>, from: int, k: Key)
  {
    forall j :: 0 <= from <= j < |t| && t[j].Put? && t[j].ok ==> t[j].key != k
  }

  lemma UntouchedShift(e: Event, t: seq<Event>, from: nat, k: Key)
    ensures UntouchedFrom([e] + t, from + 1, k) <==> UntouchedFrom(t, from, k)
  {
    var s := [e] + t;
    if UntouchedFrom(s, from + 1, k) {
      forall j | from <= j < |t| && t[j].Put? && t[j].ok ensures t[j].key != k {
        assert s[j + 1] == t[j];
      }
    }
    if UntouchedFrom(t, from, k) {
      forall j | from + 1 <= j < |s| && s[j].Put? && s[j].ok ensures s[j].key != k {
        assert s[j] == t[j - 1];
      }
    }
  }

  /** A key that no successful write goes to keeps its value. */
  lemma {:induction false} WriteBackFrame(entries: map<Key, Bytes>, writeFails: set<Key>, writes: seq<(Key, Bytes)>, k: Key)
    requires k in entries && UntouchedFrom(WriteBack(entries, writeFails, writes).0, 0, k)
    ensures var r := WriteBack(entries, writeFails, writes);
      k in r.1 && r.1[k] == entries[k]
    decreases |writes|
  {
    if |writes| > 0 && writes[0].0 !in writeFails {
      var (k0, v0) := writes[0];
      var rest := WriteBack(entries[k0 := v0], writeFails, writes[1..]);
      assert WriteBack(entries, writeFails, writes).0 == [Put(k0, true)] + rest.0;
      assert ([Put(k0, true)] + rest.0)[0] == Put(k0, true);
      UntouchedShift(Put(k0, true), rest.0, 0, k);
      WriteBackFrame(entries[k0 := v0], writeFails, writes[1..], k);
    }
  }

  /** Every successful write that no later successful write to the same key overrides is what
      the store holds afterwards. */
  lemma {:induction false} WriteBackLands(entries: map<Key, Bytes>, writeFails: set<Key>, writes: seq<(Key, Bytes)>, i: nat)
    requires var t := WriteBack(entries, writeFails, writes).0;
      i < |t| && t[i].ok && UntouchedFrom(t, i + 1, writes[i].0)
    ensures var r := WriteBack(entries, writeFails, writes);
      writes[i].0 in r.1 && r.1[writes[i].0] == writes[i].1
    decreases |writes|
  {
    var (k0, v0) := writes[0];
    var rest := WriteBack(entries[k0 := v0], writeFails, writes[1..]);
    assert WriteBack(entries, writeFails, writes) == ([Put(k0, true)] + rest.0, rest.1);
    if i == 0 {
      UntouchedShift(Put(k0, true), rest.0, 0, k0);
      WriteBackFrame(entries[k0 := v0], writeFails, writes[1..], k0);
    } else {
      assert ([Put(k0, true)] + rest.0)[i] == rest.0[i - 1];
      assert writes[1..][i - 1] == writes[i];
      assert i - 1 < |rest.0| && rest.0[i - 1].ok;
      UntouchedShift(Put(k0, true), rest.0, i - 1, writes[i].0);
      assert UntouchedFrom(rest.0, i, writes[1..][i - 1].0);
      WriteBackLands(entries[k0 := v0], writeFails, writes[1..], i - 1);
    }
  }

  /** What the write-back leaves in the store: every successful write that no later successful
      write overrides is what the store holds, so the last one holds when all succeed; no key
      outside the write list changes; and when no key fails, every write is performed. */
  lemma {:induction false} WriteBackStore(entries: map<Key, Bytes>, writeFails: set<Key>, writes: seq<(Key, Bytes)>)
    ensures var r := WriteBack(entries, writeFails, writes);
      && ((forall i :: 0 <= i < |writes| ==> writes[i].0 !in writeFails) ==> |r.0| == |writes|)
      && (|writes| > 0 && |r.0| == |writes| && r.0[|writes| - 1].ok ==>
            writes[|writes| - 1].0 in r.1 && r.1[writes[|writes| - 1].0] == writes[|writes| - 1].1)
      && r.1.Keys <= entries.Keys + WrittenKeys(writes)
      && (forall k :: k in entries && k !in WrittenKeys(writes) ==> k in r.1 && r.1[k] == entries[k])
      && (forall i :: 0 <= i < |r.0| && r.0[i].ok && UntouchedFrom(r.0, i + 1, writes[i].0) ==>
            writes[i].0 in r.1 && r.1[writes[i].0] == writes[i].1)
    decreases |writes|
  {
    var r := WriteBack(entries, writeFails, writes);
    forall i | 0 <= i < |r.0| && r.0[i].ok && UntouchedFrom(r.0, i + 1, writes[i].0)
      ensures writes[i].0 in r.1 && r.1[writes[i].0] == writes[i].1
    {
      WriteBackLands(entries, writeFails, writes, i);
    }
    if |writes| > 0 {
      WrittenKeysCons(writes);
      var (k, v) := writes[0];
      if k !in writeFails {
        WriteBackStore(entries[k := v], writeFails, writes[1..]);
      }
    }
  }

  // ---------------------------------------------------------------- the write list

  /** The write list after the answer: the base entry when it did not come from the cache,
      then the sized entry. */
  function Writes(baseKey: Key, cached: Option<Bytes>, base: Bytes, sizedKey: Key, resized: Bytes)
    : (r: seq<(Key, Bytes)>)
    ensures WrittenKeys(r) <= {baseKey, sizedKey}
  {
    (if cached.None? then [(baseKey, base)] else []) + [(sizedKey, resized)]
  }

  // ---------------------------------------------------------------- trace shape

  /** The trace holds an answer exactly when one was sent, and every answer in it is the
      response. */
  ghost predicate Answered(t: seq<Event>, response: Response)
  {
    && (response.Sent? <==> exists i :: 0 <= i < |t| && t[i].Respond?)
    && (forall i :: 0 <= i < |t| && t[i].Respond? ==> response == Sent(t[i].body))
  }

  /** Every store write comes after every other event, the answer included. */
  ghost predicate WritesLast(t: seq<Event>)
  {
    forall i, j :: 0 <= i < |t| && 0 <= j < |t| && t[i].Put? && !t[j].Put? ==> j < i
  }

  /** Every store write goes to one of `keys`. */
  ghost predicate WritesOnly(t: seq<Event>, keys: set<Key>)
  {
    forall i :: 0 <= i < |t| && t[i].Put? ==> t[i].key in keys
  }

  lemma AnsweredThenWritten(before: seq<Event>, body: Bytes, puts: seq<Event>, keys: set<Key>)
    requires forall i :: 0 <= i < |before| ==> !before[i].Put? && !before[i].Respond?
    requires forall i :: 0 <= i < |puts| ==> puts[i].Put? && puts[i].key in keys
    ensures var t := before + [Respond(body)] + puts;
      Answered(t, Sent(body)) && WritesLast(t) && WritesOnly(t, keys)
  {
    var t := before + [Respond(body)] + puts;
    assert t[|before|] == Respond(body);
    forall i | 0 <= i < |t|
      ensures t[i].Put? <==> i > |before|
      ensures t[i].Respond? ==> t[i] == Respond(body)
    {
      if i > |before| { assert t[i] == puts[i - |before| - 1]; }
    }
  }

  // ---------------------------------------------------------------- the handler

  /** The base entry as read from the store; under the bypass flag it is never read. */
  function CachedBase(cfg: Config, env: Env, kind: string, q: Query, st: Storage): Option<Bytes>
  {
    var baseKey := BaseKey(cfg, env, kind, q);
    if !q.cb && baseKey in st.entries then Some(st.entries[baseKey]) else None
  }

  /** The resolvers a request calls after a sized-cache miss: none after a base-cache hit,
      otherwise all registered for the type. */
  function CalledResolvers(cfg: Config, env: Env, kind: string, q: Query, st: Storage): seq<ResolverName>
  {
    if CachedBase(cfg, env, kind, q, st).Some? then [] else ResolversFor(cfg, kind)
  }

  /** The answers of the called resolvers, in registration order. */
  function Answers(cfg: Config, env: Env, kind: string, q: Query, st: Storage): seq<Resolved>
  {
    Gather(env.resolve, CalledResolvers(cfg, env, kind, q, st), q.address, q.network)
  }

  /** The events before the answer: the two cache reads (skipped under the bypass flag), then
      the resolver calls. */
  function Prelude(cfg: Config, env: Env, kind: string, q: Query, st: Storage): (t: seq<Event>)
    ensures forall i :: 0 <= i < |t| ==> !t[i].Put? && !t[i].Respond?
    ensures forall i, j :: 0 <= i < |t| && 0 <= j < |t| && t[i].Get? && t[j].Call? ==> i < j
    ensures forall i :: 0 <= i < |t| && t[i].Call? ==> t[i].address == q.address && t[i].network == q.network
  {
    (if q.cb then [] else [Get(SizedKey(env, kind, q)), Get(BaseKey(cfg, env, kind, q))])
      + CallEvents(CalledResolvers(cfg, env, kind, q, st), q.address, q.network)
  }

  /** The base image: the cached one, or the one the fan-out selected. */
  function BaseImage(cfg: Config, env: Env, kind: string, q: Query, st: Storage): Option<Bytes>
  {
    match CachedBase(cfg, env, kind, q, st)
    case Some(b) => Some(b)
    case None => SelectBase(Answers(cfg, env, kind, q, st))
  }

  /** The request after a sized-cache miss (or with the bypass flag): the base image from the
      base cache or from the resolvers, the resize, the answer and the write-back. */
  function ServeMiss(cfg: Config, env: Env, kind: string, q: Query, st: Storage): (r: Served)
    ensures Answered(r.trace, r.response) && WritesLast(r.trace)
    ensures WritesOnly(r.trace, {BaseKey(cfg, env, kind, q), SizedKey(env, kind, q)})
    ensures r.response.Unsent? ==> r.entries == st.entries
    ensures r.entries.Keys <= st.entries.Keys + {BaseKey(cfg, env, kind, q), SizedKey(env, kind, q)}
    ensures forall k :: k in st.entries && k != BaseKey(cfg, env, kind, q) && k != SizedKey(env, kind, q) ==>
      k in r.entries && r.entries[k] == st.entries[k]
  {
    var before := Prelude(cfg, env, kind, q, st);
    if AnyRejected(Answers(cfg, env, kind, q, st)) then Served(Unsent(ResolverRejected), before, st.entries)
    else
      match BaseImage(cfg, env, kind, q, st)
      case None => Served(Unsent(NoImage), before, st.entries)
      case Some(base) =>
        match env.resize(base, q.w, q.h)
        case None => Served(Unsent(ResizeFailed), before, st.entries)
        case Some(resized) =>
          var baseKey := BaseKey(cfg, env, kind, q);
          var sizedKey := SizedKey(env, kind, q);
          var writes := Writes(baseKey, CachedBase(cfg, env, kind, q, st), base, sizedKey, resized);
          var (puts, entries) := WriteBack(st.entries, st.writeFails, writes);
          WriteBackStore(st.entries, st.writeFails, writes);
          AnsweredThenWritten(before, resized, puts, {baseKey, sizedKey});
          Served(Sent(resized), before + [Respond(resized)] + puts, entries)
  }

  /** One GET request for image type `kind`, with the query the parser produced (`None` when
      the parser threw). */
  function ServeImage(cfg: Config, env: Env, kind: string, parsed: Option<Query>, st: Storage): (r: Served)
    ensures parsed.None? ==> r.response == Unsent(QueryFailed) && r.trace == []
    ensures Answered(r.trace, r.response) && WritesLast(r.trace)
    ensures parsed.Some? ==> WritesOnly(r.trace, {BaseKey(cfg, env, kind, parsed.value), SizedKey(env, kind, parsed.value)})
    ensures r.response.Unsent? ==> r.entries == st.entries
    ensures parsed.Some? ==> r.entries.Keys <= st.entries.Keys + {BaseKey(cfg, env, kind, parsed.value), SizedKey(env, kind, parsed.value)}
    ensures parsed.Some? ==> forall k :: k in st.entries && k != BaseKey(cfg, env, kind, parsed.value)
                                         && k != SizedKey(env, kind, parsed.value) ==>
      k in r.entries && r.entries[k] == st.entries[k]
  {
    if parsed.None? then Served(Unsent(QueryFailed), [], st.entries)
    else
      var q := parsed.value;
      var sizedKey := SizedKey(env, kind, q);
      if !q.cb && sizedKey in st.entries then
        // sized-cache hit: pipe the stored bytes, nothing else
        var hit := st.entries[sizedKey];
        var trace := [Get(sizedKey), Respond(hit)];
        assert trace[1].Respond?;
        Served(Sent(hit), trace, st.entries)
      else
        ServeMiss(cfg, env, kind, q, st)
  }
}

=== FILE: json_text.dfy ===
/** The two pieces of JSON text the cache key is built from: quoted strings, escaped the way
    ECMAScript's JSON.stringify escapes them (QuoteJSONString), and non-negative integers in
    decimal. Each encoder comes with a decoder and a round-trip lemma; together they make the
    key serialization injective. */
module JsonText {
  import opened Types

  // ---------------------------------------------------------------- hex digits

  /** Lower-case hex digit, as JSON.stringify writes in a `\u00XX` escape. */
  function HexDigit(d: nat): (c: char)
    requires d < 16
    ensures HexValue(c) == Some(d)
  {
    if d < 10 then ('0' as int + d) as char else ('a' as int + d - 10) as char
  }

  function HexValue(c: char): (r: Option<nat>)
    ensures r.Some? ==> r.value < 16
  {
    if '0' <= c <= '9' then Some(c as int - '0' as int)
    else if 'a' <= c <= 'f' then Some(c as int - 'a' as int + 10)
    else if 'A' <= c <= 'F' then Some(c as int - 'A' as int + 10)
    else None
  }

  // ---------------------------------------------------------------- strings

  /** The JSON text of one character inside a quoted string: the two-character escapes for
      backspace, tab, line feed, form feed, carriage return, quote and backslash, a `\u00XX`
      escape for every other control character, and the character itself otherwise. */
  function EscapeChar(c: char): (r: string)
    ensures |r| >= 1
    ensures r[0] == '\\' <==> (c == '"' || c == '\\' || (c as int) < 0x20)
  {
    if c == '"' then ['\\', '"']
    else if c == '\\' then ['\\', '\\']
    else if c as int == 0x08 then ['\\', 'b']
    else if c as int == 0x09 then ['\\', 't']
    else if c as int == 0x0A then ['\\', 'n']
    else if c as int == 0x0C then ['\\', 'f']
    else if c as int == 0x0D then ['\\', 'r']
    else if (c as int) < 0x20 then ['\\', 'u', '0', '0', HexDigit(c as int / 16), HexDigit(c as int % 16)]
    else [c]
  }

  function Escape(s: string): (r: string)
    ensures |r| >= |s|
  {
    if |s| == 0 then [] else EscapeChar(s[0]) + Escape(s[1..])
  }

  /** A JSON string literal: the escaped text between double quotes. */
  function Quote(s: string): string
  {
    ['"'] + (Escape(s) + ['"'])
  }

  /** The character a `\uXXXX` escape denotes, when its four hex digits name a Unicode
      scalar value. */
  function UnicodeEscape(t: string): (r: Option<char>)
    requires |t| >= 4
  {
    match (HexValue(t[0]), HexValue(t[1]), HexValue(t[2]), HexValue(t[3]))
    case (Some(a), Some(b), Some(c), Some(d)) =>
      var v := ((a * 16 + b) * 16 + c) * 16 + d;
      if v < 0xD800 || 0xE000 <= v then Some(v as char) else None
    case _ => None
  }

  /** Decodes the escape sequence that follows a backslash; returns the character and the
      text after the escape. */
  function Unescape(t: string): (r: Option<(char, string)>)
    ensures r.Some? ==> |r.value.1| < |t|
  {
    if |t| == 0 then None
    else if t[0] == '"' || t[0] == '\\' || t[0] == '/' then Some((t[0], t[1..]))
    else if t[0] == 'b' then Some((0x08 as char, t[1..]))
    else if t[0] == 't' then Some((0x09 as char, t[1..]))
    else if t[0] == 'n' then Some((0x0A as char, t[1..]))
    else if t[0] == 'f' then Some((0x0C as char, t[1..]))
    else if t[0] == 'r' then Some((0x0D as char, t[1..]))
    else if t[0] == 'u' && |t| >= 5 then
      match UnicodeEscape(t[1..5])
      case Some(c) => Some((c, t[5..]))
      case None => None
    else None
  }

  /** Reads the body of a string literal up to and including its closing quote; returns the
      decoded contents and the text after the quote. */
  function ParseChars(s: string): (r: Option<(string, string)>)
    decreases |s|
  {
    if |s| == 0 then None
    else if s[0] == '"' then Some(([], s[1..]))
    else if s[0] == '\\' then
      match Unescape(s[1..])
      case None => None
      case Some((c, t)) => Prepend(c, ParseChars(t))
    else Prepend(s[0], ParseChars(s[1..]))
  }

  function Prepend(c: char, r: Option<(string, string)>): Option<(string, string)>
  {
    match r
    case None => None
    case Some((x, t)) => Some(([c] + x, t))
  }

  /** Reads a JSON string literal from the front of `s`. */
  function ParseQuoted(s: string): Option<(string, string)>
  {
    if |s| > 0 && s[0] == '"' then ParseChars(s[1..]) else None
  }

  lemma ParsePlainChar(c: char, t: string)
    requires EscapeChar(c)[0] != '\\'
    ensures ParseChars(EscapeChar(c) + t) == Prepend(c, ParseChars(t))
  {
  }

  lemma ParseShortEscape(c: char, t: string)
    requires |EscapeChar(c)| == 2
    ensures ParseChars(EscapeChar(c) + t) == Prepend(c, ParseChars(t))
  {
  }

  lemma ParseUnicodeEscape(c: char, t: string)
    requires |EscapeChar(c)| == 6
    ensures ParseChars(EscapeChar(c) + t) == Prepend(c, ParseChars(t))
  {
    var v := c as int;
    var e := EscapeChar(c);
    assert e == ['\\', 'u', '0', '0', HexDigit(v / 16), HexDigit(v % 16)];
    var s := e + t;
    var u := s[1..];
    assert u == ['u', '0', '0', HexDigit(v / 16), HexDigit(v % 16)] + t;
    assert u[1..5] == ['0', '0', HexDigit(v / 16), HexDigit(v % 16)];
    assert u[5..] == t;
    assert UnicodeEscape(u[1..5]) == Some(c);
    assert Unescape(u) == Some((c, t));
  }

  /** Decoding one escaped character gives that character back. */
  lemma ParseEscapedChar(c: char, t: string)
    ensures ParseChars(EscapeChar(c) + t) == Prepend(c, ParseChars(t))
  {
    var e := EscapeChar(c);
    if e[0] != '\\' {
      ParsePlainChar(c, t);
    } else if |e| == 2 {
      ParseShortEscape(c, t);
    } else {
      ParseUnicodeEscape(c, t);
    }
  }

  /** JSON string round trip: decoding an escaped string, its closing quote and any suffix
      yields the string and the suffix. */
  lemma {:induction false} ParseEscape(x: string, rest: string)
    ensures ParseChars(Escape(x) + (['"'] + rest)) == Some((x, rest))
    decreases |x|
  {
    if |x| == 0 {
      assert Escape(x) + (['"'] + rest) == ['"'] + rest;
      assert (['"'] + rest)[1..] == rest;
    } else {
      var t := Escape(x[1..]) + (['"'] + rest);
      assert Escape(x) + (['"'] + rest) == EscapeChar(x[0]) + t;
      ParseEscapedChar(x[0], t);
      ParseEscape(x[1..], rest);
      assert [x[0]] + x[1..] == x;
    }
  }

  /** A quoted string followed by anything is read back exactly. */
  lemma ParseQuotedRoundTrip(x: string, rest: string)
    ensures ParseQuoted(Quote(x) + rest) == Some((x, rest))
  {
    var s := Quote(x) + rest;
    assert s[1..] == Escape(x) + (['"'] + rest);
    ParseEscape(x, rest);
  }

  // ---------------------------------------------------------------- integers

  predicate IsDigit(c: char)
  {
    '0' <= c <= '9'
  }

  predicate AllDigits(s: string)
  {
    forall i :: 0 <= i < |s| ==> IsDigit(s[i])
  }

  function DigitChar(d: nat): (c: char)
    requires d < 10
    ensures IsDigit(c)
  {
    ('0' as int + d) as char
  }

  /** A non-negative integer as JSON.stringify writes it (below 10^21, where JavaScript switches
      to exponent notation): decimal digits, no sign, no leading zero. */
  function Decimal(n: nat): (r: string)
    ensures |r| >= 1 && AllDigits(r)
    ensures r[0] == '0' ==> n == 0
    decreases n
  {
    if n < 10 then [DigitChar(n)] else Decimal(n / 10) + [DigitChar(n % 10)]
  }

  /** The number a run of decimal digits denotes, most significant first. */
  function DigitsValue(d: string): nat
    requires AllDigits(d)
    decreases |d|
  {
    if |d| == 0 then 0 else DigitsValue(d[..|d| - 1]) * 10 + (d[|d| - 1] as int - '0' as int)
  }

  /** Length of the longest run of digits at the front of `s`. */
  function DigitRun(s: string): (k: nat)
    ensures k <= |s|
    ensures AllDigits(s[..k])
    ensures k < |s| ==> !IsDigit(s[k])
  {
    if |s| == 0 || !IsDigit(s[0]) then 0
    else
      var k := 1 + DigitRun(s[1..]);
      assert s[..k] == [s[0]] + s[1..][..k - 1];
      k
  }

  /** Reads a JSON integer from the front of `s`; returns its value and the text after it. */
  function ParseNatural(s: string): Option<(nat, string)>
  {
    var k := DigitRun(s);
    if k == 0 then None else Some((DigitsValue(s[..k]), s[k..]))
  }

  lemma {:induction false} DecimalValue(n: nat)
    ensures DigitsValue(Decimal(n)) == n
    decreases n
  {
    var d := Decimal(n);
    if n >= 10 {
      DecimalValue(n / 10);
      assert d[..|d| - 1] == Decimal(n / 10);
    }
  }

  lemma {:induction false} DigitRunAppend(d: string, rest: string)
    requires AllDigits(d)
    requires |rest| == 0 || !IsDigit(rest[0])
    ensures DigitRun(d + rest) == |d|
    decreases |d|
  {
    if |d| == 0 {
      assert d + rest == rest;
    } else {
      assert (d + rest)[1..] == d[1..] + rest;
      DigitRunAppend(d[1..], rest);
    }
  }

  /** JSON integer round trip: decimal text followed by a non-digit is read back exactly. */
  lemma ParseDecimalRoundTrip(n: nat, rest: string)
    requires |rest| == 0 || !IsDigit(rest[0])
    ensures ParseNatural(Decimal(n) + rest) == Some((n, rest))
  {
    var d := Decimal(n);
    DigitRunAppend(d, rest);
    assert (d + rest)[..|d|] == d;
    assert (d + rest)[|d|..] == rest;
    DecimalValue(n);
  }
}

=== FILE: pipeline_properties.dfy ===
/** What the GET handler promises, stated over projections of its trace: the store reads, the
    resolver calls and the store writes it performs, in order. */
module PipelineProperties {
  import opened Types
  import opened Resolution
  import opened ImagePipeline

  // ---------------------------------------------------------------- trace projections

  /** The keys read from the store, in order. */
  function Reads(t: seq<Event>): seq<Key>
  {
    if |t| == 0 then [] else (if t[0].Get? then [t[0].key] else []) + Reads(t[1..])
  }

  /** The resolvers called, in order. */
  function Calls(t: seq<Event>): seq<ResolverName>
  {
    if |t| == 0 then [] else (if t[0].Call? then [t[0].resolver] else []) + Calls(t[1..])
  }

  /** The store writes attempted, in order, with whether each succeeded. */
  function Stores(t: seq<Event>): seq<(Key, bool)>
  {
    if |t| == 0 then [] else (if t[0].Put? then [(t[0].key, t[0].ok)] else []) + Stores(t[1..])
  }

  lemma {:induction false} ReadsAppend(a: seq<Event>, b: seq<Event>)
    ensures Reads(a + b) == Reads(a) + Reads(b)
    decreases |a|
  {
    if |a| == 0 {
      assert a + b == b;
    } else {
      assert (a + b)[0] == a[0];
      assert (a + b)[1..] == a[1..] + b;
      ReadsAppend(a[1..], b);
    }
  }

  lemma {:induction false} CallsAppend(a: seq<Event>, b: seq<Event>)
    ensures Calls(a + b) == Calls(a) + Calls(b)
    decreases |a|
  {
    if |a| == 0 {
      assert a + b == b;
    } else {
      assert (a + b)[0] == a[0];
      assert (a + b)[1..] == a[1..] + b;
      CallsAppend(a[1..], b);
    }
  }

  lemma {:induction false} StoresAppend(a: seq<Event>, b: seq<Event>)
    ensures Stores(a + b) == Stores(a) + Stores(b)
    decreases |a|
  {
    if |a| == 0 {
      assert a + b == b;
    } else {
      assert (a + b)[0] == a[0];
      assert (a + b)[1..] == a[1..] + b;
      StoresAppend(a[1..], b);
    }
  }

  /** The projections distribute over concatenation. */
  lemma ProjectAppend(a: seq<Event>, b: seq<Event>)
    ensures Reads(a + b) == Reads(a) + Reads(b)
    ensures Calls(a + b) == Calls(a) + Calls(b)
    ensures Stores(a + b) == Stores(a) + Stores(b)
  {
    ReadsAppend(a, b);
    CallsAppend(a, b);
    StoresAppend(a, b);
  }

  lemma {:induction false} ProjectCalls(names: seq<ResolverName>, address: string, network: string)
    ensures var t := CallEvents(names, address, network);
      Reads(t) == [] && Calls(t) == names && Stores(t) == []
    decreases |names|
  {
    var t := CallEvents(names, address, network);
    if |names| > 0 {
      assert t[1..] == CallEvents(names[1..], address, network);
      ProjectCalls(names[1..], address, network);
    }
  }

  lemma {:induction false} ProjectPuts(puts: seq<Event>)
    requires forall i :: 0 <= i < |puts| ==> puts[i].Put?
    ensures Reads(puts) == [] && Calls(puts) == []
    decreases |puts|
  {
    if |puts| > 0 {
      ProjectPuts(puts[1..]);
    }
  }

  lemma PreludeProjections(cfg: Config, env: Env, kind: string, q: Query, st: Storage)
    ensures var t := Prelude(cfg, env, kind, q, st);
      && Reads(t) == (if q.cb then [] else [SizedKey(env, kind, q), BaseKey(cfg, env, kind, q)])
      && Calls(t) == CalledResolvers(cfg, env, kind, q, st)
      && Stores(t) == []
  {
    var probes: seq<Event> := if q.cb then [] else [Get(SizedKey(env, kind, q)), Get(BaseKey(cfg, env, kind, q))];
    var calls := CallEvents(CalledResolvers(cfg, env, kind, q, st), q.address, q.network);
    ProjectAppend(probes, calls);
    ProjectCalls(CalledResolvers(cfg, env, kind, q, st), q.address, q.network);
    if !q.cb {
      ProjectAppend([probes[0]], [probes[1]]);
      assert probes == [probes[0]] + [probes[1]];
    }
  }

  lemma ProjectRespond(body: Bytes)
    ensures Reads([Respond(body)]) == [] && Calls([Respond(body)]) == [] && Stores([Respond(body)]) == []
  {
  }

  /** Projections of an answered trace: the answer and the writes add no read and no call. */
  lemma AnsweredProjections(before: seq<Event>, body: Bytes, puts: seq<Event>)
    requires forall i :: 0 <= i < |puts| ==> puts[i].Put?
    ensures var t := before + [Respond(body)] + puts;
      && Reads(t) == Reads(before)
      && Calls(t) == Calls(before)
      && Stores(t) == Stores(before) + Stores(puts)
  {
    var r: seq<Event> := [Respond(body)];
    ProjectRespond(body);
    ProjectAppend(before, r);
    ProjectAppend(before + r, puts);
    ProjectPuts(puts);
    assert Reads(before) + [] == Reads(before);
    assert Calls(before) + [] == Calls(before);
    assert Stores(before) + [] == Stores(before);
    assert Reads(puts) == [] && Calls(puts) == [];
  }

  /** Every store read comes before every resolver call. */
  ghost predicate ReadsBeforeCalls(t: seq<Event>)
  {
    forall i, j :: 0 <= i < |t| && 0 <= j < |t| && t[i].Get? && t[j].Call? ==> i < j
  }

  /** Every resolver call is made with `address` and `network`. */
  ghost predicate CallsWith(t: seq<Event>, address: string, network: string)
  {
    forall i :: 0 <= i < |t| && t[i].Call? ==> t[i].address == address && t[i].network == network
  }

  /** After a sized-cache miss the trace starts with the prelude, and whatever follows it is
      the answer or a store write. */
  lemma MissTraceShape(cfg: Config, env: Env, kind: string, q: Query, st: Storage)
    ensures var r := ServeMiss(cfg, env, kind, q, st);
      var before := Prelude(cfg, env, kind, q, st);
      && |before| <= |r.trace| && r.trace[..|before|] == before
      && forall i :: |before| <= i < |r.trace| ==> r.trace[i].Respond? || r.trace[i].Put?
  {
    var r := ServeMiss(cfg, env, kind, q, st);
    var before := Prelude(cfg, env, kind, q, st);
    if r.response.Sent? {
      var base := BaseImage(cfg, env, kind, q, st).value;
      var resized := env.resize(base, q.w, q.h).value;
      var writes := Writes(BaseKey(cfg, env, kind, q), CachedBase(cfg, env, kind, q, st), base, SizedKey(env, kind, q), resized);
      var puts := WriteBack(st.entries, st.writeFails, writes).0;
      assert r.trace == before + [Respond(resized)] + puts;
      forall i | |before| < i < |r.trace| ensures r.trace[i].Put? {
        assert r.trace[i] == puts[i - |before| - 1];
      }
    }
  }

  /** After a sized-cache miss, every store read precedes every resolver call, and every call
      carries the request's address and network. */
  lemma MissTraceOrder(cfg: Config, env: Env, kind: string, q: Query, st: Storage)
    ensures var r := ServeMiss(cfg, env, kind, q, st);
      ReadsBeforeCalls(r.trace) && CallsWith(r.trace, q.address, q.network)
  {
    var r := ServeMiss(cfg, env, kind, q, st);
    var before := Prelude(cfg, env, kind, q, st);
    MissTraceShape(cfg, env, kind, q, st);
    forall i | 0 <= i < |r.trace| && (r.trace[i].Get? || r.trace[i].Call?)
      ensures i < |before| && r.trace[i] == before[i]
    {
      assert r.trace[..|before|][i] == r.trace[i];
    }
  }

  /** The reads and calls of a request that missed the sized cache, whatever happens after:
      the reads come first, every call carries the request's address and network, and no
      write happens unless an answer was sent. */
  lemma MissTrace(cfg: Config, env: Env, kind: string, q: Query, st: Storage)
    ensures var r := ServeMiss(cfg, env, kind, q, st);
      && Reads(r.trace) == (if q.cb then [] else [SizedKey(env, kind, q), BaseKey(cfg, env, kind, q)])
      && Calls(r.trace) == CalledResolvers(cfg, env, kind, q, st)
      && ReadsBeforeCalls(r.trace)
      && CallsWith(r.trace, q.address, q.network)
      && (r.response.Unsent? ==> Stores(r.trace) == [])
  {
    MissTraceOrder(cfg, env, kind, q, st);
    PreludeProjections(cfg, env, kind, q, st);
    var r := ServeMiss(cfg, env, kind, q, st);
    var before := Prelude(cfg, env, kind, q, st);
    if r.response.Sent? {
      var base := BaseImage(cfg, env, kind, q, st).value;
      var resized := env.resize(base, q.w, q.h).value;
      var writes := Writes(BaseKey(cfg, env, kind, q), CachedBase(cfg, env, kind, q, st), base, SizedKey(env, kind, q), resized);
      var puts := WriteBack(st.entries, st.writeFails, writes).0;
      assert r.trace == before + [Respond(resized)] + puts;
      AnsweredProjections(before, resized, puts);
    }
  }

  // ---------------------------------------------------------------- scenarios

  /** Sized-cache short-circuit: without the bypass flag, a stored sized entry is answered
      exactly as stored, after one read and with no base read, no resolver call and no write. */
  lemma SizedCacheShortCircuit(cfg: Config, env: Env, kind: string, q: Query, st: Storage)
    requires !q.cb && SizedKey(env, kind, q) in st.entries
    ensures var r := ServeImage(cfg, env, kind, Some(q), st);
      && r.response == Sent(st.entries[SizedKey(env, kind, q)])
      && Reads(r.trace) == [SizedKey(env, kind, q)]
      && Calls(r.trace) == []
      && Stores(r.trace) == []
      && r.entries == st.entries
  {
    var sizedKey := SizedKey(env, kind, q);
    var t := ServeImage(cfg, env, kind, Some(q), st).trace;
    assert t == [Get(sizedKey)] + [Respond(st.entries[sizedKey])];
    ProjectAppend([Get(sizedKey)], [Respond(st.entries[sizedKey])]);
  }

  /** Base-cache hit: without the bypass flag, when only the base entry is stored, no resolver
      is called, the answer is the resize of the stored base image, and the sized entry is the
      only write; the base entry is not rewritten. */
  lemma BaseCacheHit(cfg: Config, env: Env, kind: string, q: Query, st: Storage)
    requires !q.cb && SizedKey(env, kind, q) !in st.entries && BaseKey(cfg, env, kind, q) in st.entries
    ensures var r := ServeImage(cfg, env, kind, Some(q), st);
      var sizedKey := SizedKey(env, kind, q);
      && Reads(r.trace) == [sizedKey, BaseKey(cfg, env, kind, q)]
      && Calls(r.trace) == []
      && (match env.resize(st.entries[BaseKey(cfg, env, kind, q)], q.w, q.h)
          case None => r.response == Unsent(ResizeFailed) && Stores(r.trace) == []
          case Some(resized) =>
            && r.response == Sent(resized)
            && Stores(r.trace) == [(sizedKey, sizedKey !in st.writeFails)]
            && r.entries == if sizedKey in st.writeFails then st.entries else st.entries[sizedKey := resized])
  {
    MissTrace(cfg, env, kind, q, st);
    var baseKey := BaseKey(cfg, env, kind, q);
    var sizedKey := SizedKey(env, kind, q);
    var cached := st.entries[baseKey];
    assert CachedBase(cfg, env, kind, q, st) == Some(cached);
    assert Answers(cfg, env, kind, q, st) == [];
    match env.resize(cached, q.w, q.h)
    case None =>
    case Some(resized) =>
      var writes := [(sizedKey, resized)];
      assert Writes(baseKey, Some(cached), cached, sizedKey, resized) == writes;
      var ok := sizedKey !in st.writeFails;
      var puts := [Put(sizedKey, ok)];
      assert WriteBack(st.entries, st.writeFails, writes)
          == (puts, if ok then st.entries[sizedKey := resized] else st.entries) by {
        assert writes[1..] == [];
        if ok {
          assert WriteBack(st.entries[sizedKey := resized], st.writeFails, []) == ([], st.entries[sizedKey := resized]);
          assert [Put(sizedKey, true)] + [] == puts;
        }
      }
      assert Stores(puts) == [(sizedKey, ok)];
      var before := Prelude(cfg, env, kind, q, st);
      assert ServeImage(cfg, env, kind, Some(q), st).trace == before + [Respond(resized)] + puts;
      AnsweredProjections(before, resized, puts);
      PreludeProjections(cfg, env, kind, q, st);
  }

  /** The resolver path (bypass flag set, or both cache tiers empty) calls every resolver
      registered for the type, in registration order. */
  lemma ResolverPathCalls(cfg: Config, env: Env, kind: string, q: Query, st: Storage)
    requires q.cb || (SizedKey(env, kind, q) !in st.entries && BaseKey(cfg, env, kind, q) !in st.entries)
    ensures Calls(ServeImage(cfg, env, kind, Some(q), st).trace) == ResolversFor(cfg, kind)
  {
    MissTrace(cfg, env, kind, q, st);
  }

  /** Resolver choice on the resolver path: a request of type "token" calls the token
      resolvers, and a request of any other type, recognised or not, calls the avatar
      resolvers, each list in registration order. */
  lemma ResolverListByType(cfg: Config, env: Env, kind: string, q: Query, st: Storage)
    requires q.cb || (SizedKey(env, kind, q) !in st.entries && BaseKey(cfg, env, kind, q) !in st.entries)
    ensures var calls := Calls(ServeImage(cfg, env, kind, Some(q), st).trace);
      && (kind == "token" ==> calls == cfg.tokenResolvers)
      && (kind != "token" ==> calls == cfg.avatarResolvers)
  {
    ResolverPathCalls(cfg, env, kind, q, st);
  }

  /** Every resolver the handler calls is asked about the request's address and network. */
  lemma ResolverCallsCarryQuery(cfg: Config, env: Env, kind: string, q: Query, st: Storage)
    ensures CallsWith(ServeImage(cfg, env, kind, Some(q), st).trace, q.address, q.network)
  {
    if q.cb || SizedKey(env, kind, q) !in st.entries {
      MissTraceOrder(cfg, env, kind, q, st);
    }
  }

  /** The answer on the resolver path: a rejected call leaves the request unanswered, and so
      does the absence of any image; otherwise the answer is the resize of the LAST image in
      registration order. */
  lemma ResolverPathAnswer(cfg: Config, env: Env, kind: string, q: Query, st: Storage)
    requires q.cb || (SizedKey(env, kind, q) !in st.entries && BaseKey(cfg, env, kind, q) !in st.entries)
    ensures var r := ServeImage(cfg, env, kind, Some(q), st);
      var files := Gather(env.resolve, ResolversFor(cfg, kind), q.address, q.network);
      && (AnyRejected(files) ==> r.response == Unsent(ResolverRejected))
      && (!AnyRejected(files) && (forall j :: 0 <= j < |files| ==> !files[j].Image?) ==>
            r.response == Unsent(NoImage))
      && (forall i :: !AnyRejected(files) && IsLastImage(files, i) ==>
            r.response == match env.resize(files[i].bytes, q.w, q.h)
                          case None => Unsent(ResizeFailed)
                          case Some(resized) => Sent(resized))
  {
    var files := Gather(env.resolve, ResolversFor(cfg, kind), q.address, q.network);
    assert CachedBase(cfg, env, kind, q, st) == None;
    assert Answers(cfg, env, kind, q, st) == files;
    SelectBaseIsLastImage(files);
  }

  /** On the resolver path an answered request writes the base entry first, because none was
      read; the sized entry follows only when the base write succeeded, and nothing else is
      written. */
  lemma ResolverPathWritesBaseFirst(cfg: Config, env: Env, kind: string, q: Query, st: Storage)
    requires q.cb || (SizedKey(env, kind, q) !in st.entries && BaseKey(cfg, env, kind, q) !in st.entries)
    ensures var r := ServeImage(cfg, env, kind, Some(q), st);
      var baseKey := BaseKey(cfg, env, kind, q);
      var sizedKey := SizedKey(env, kind, q);
      r.response.Sent? ==>
        Stores(r.trace) == [(baseKey, baseKey !in st.writeFails)]
                           + (if baseKey in st.writeFails then [] else [(sizedKey, sizedKey !in st.writeFails)])
  {
    var r := ServeImage(cfg, env, kind, Some(q), st);
    if r.response.Sent? {
      assert CachedBase(cfg, env, kind, q, st) == None;
      var base := BaseImage(cfg, env, kind, q, st).value;
      var resized := env.resize(base, q.w, q.h).value;
      var baseKey := BaseKey(cfg, env, kind, q);
      var sizedKey := SizedKey(env, kind, q);
      var writes := Writes(baseKey, None, base, sizedKey, resized);
      assert writes == [(baseKey, base), (sizedKey, resized)];
      var puts := WriteBack(st.entries, st.writeFails, writes).0;
      var expected: seq<Event> :=
        [Put(baseKey, baseKey !in st.writeFails)]
        + (if baseKey in st.writeFails then [] else [Put(sizedKey, sizedKey !in st.writeFails)]);
      assert puts == expected by {
        if baseKey !in st.writeFails {
          var tail := WriteBack(st.entries[baseKey := base], st.writeFails, writes[1..]);
          assert writes[1..] == [(sizedKey, resized)];
          assert writes[1..][1..] == [];
          assert tail.0 == [Put(sizedKey, sizedKey !in st.writeFails)];
        }
      }
      assert Stores(expected) == [(baseKey, baseKey !in st.writeFails)]
                                 + (if baseKey in st.writeFails then [] else [(sizedKey, sizedKey !in st.writeFails)]) by {
        ProjectAppend([expected[0]], expected[1..]);
        assert expected == [expected[0]] + expected[1..];
      }
      var before := Prelude(cfg, env, kind, q, st);
      assert r.trace == before + [Respond(resized)] + puts;
      AnsweredProjections(before, resized, puts);
      PreludeProjections(cfg, env, kind, q, st);
    }
  }

  /** What the resolver path stores: when the base and sized keys differ and neither write
      fails, an answered request leaves the selected resolver image, not resized, under the base
      key, and the answer under the sized key. */
  lemma ResolverPathStores(cfg: Config, env: Env, kind: string, q: Query, st: Storage)
    requires q.cb || (SizedKey(env, kind, q) !in st.entries && BaseKey(cfg, env, kind, q) !in st.entries)
    requires BaseKey(cfg, env, kind, q) != SizedKey(env, kind, q)
    requires BaseKey(cfg, env, kind, q) !in st.writeFails && SizedKey(env, kind, q) !in st.writeFails
    ensures var r := ServeImage(cfg, env, kind, Some(q), st);
      var files := Gather(env.resolve, ResolversFor(cfg, kind), q.address, q.network);
      var baseKey := BaseKey(cfg, env, kind, q);
      var sizedKey := SizedKey(env, kind, q);
      r.response.Sent? ==>
        && baseKey in r.entries && Some(r.entries[baseKey]) == SelectBase(files)
        && sizedKey in r.entries && r.response == Sent(r.entries[sizedKey])
  {
    var r := ServeImage(cfg, env, kind, Some(q), st);
    if r.response.Sent? {
      var files := Gather(env.resolve, ResolversFor(cfg, kind), q.address, q.network);
      assert CachedBase(cfg, env, kind, q, st) == None;
      assert Answers(cfg, env, kind, q, st) == files;
      var base := BaseImage(cfg, env, kind, q, st).value;
      var resized := env.resize(base, q.w, q.h).value;
      var baseKey := BaseKey(cfg, env, kind, q);
      var sizedKey := SizedKey(env, kind, q);
      var writes := Writes(baseKey, None, base, sizedKey, resized);
      assert writes == [(baseKey, base), (sizedKey, resized)];
      var wb := WriteBack(st.entries, st.writeFails, writes);
      WriteBackStore(st.entries, st.writeFails, writes);
      assert |wb.0| == 2 && wb.0[0] == Put(baseKey, true) && wb.0[1] == Put(sizedKey, true);
      assert UntouchedFrom(wb.0, 1, baseKey);
      assert UntouchedFrom(wb.0, 2, sizedKey);
      assert r.entries == wb.1 && r.response == Sent(resized);
    }
  }

  /** The base entry serves other sizes: after an answered resolver-path request whose writes
      succeeded (with distinct base and sized keys), a request for the same identity at another
      size whose sized entry is absent calls no resolver and is answered with the resize of the
      image the resolvers selected. */
  lemma BaseServesOtherSizes(cfg: Config, env: Env, kind: string, q: Query, st: Storage,
                             q': Query, writeFails: set<Key>)
    requires q.cb || (SizedKey(env, kind, q) !in st.entries && BaseKey(cfg, env, kind, q) !in st.entries)
    requires BaseKey(cfg, env, kind, q) != SizedKey(env, kind, q)
    requires BaseKey(cfg, env, kind, q) !in st.writeFails && SizedKey(env, kind, q) !in st.writeFails
    requires ServeImage(cfg, env, kind, Some(q), st).response.Sent?
    requires q'.address == q.address && q'.network == q.network && !q'.cb
    requires SizedKey(env, kind, q') !in ServeImage(cfg, env, kind, Some(q), st).entries
    ensures var first := ServeImage(cfg, env, kind, Some(q), st);
      var files := Gather(env.resolve, ResolversFor(cfg, kind), q.address, q.network);
      var again := ServeImage(cfg, env, kind, Some(q'), Storage(first.entries, writeFails));
      && SelectBase(files).Some?
      && Calls(again.trace) == []
      && again.response == match env.resize(SelectBase(files).value, q'.w, q'.h)
                           case None => Unsent(ResizeFailed)
                           case Some(resized) => Sent(resized)
  {
    var first := ServeImage(cfg, env, kind, Some(q), st);
    ResolverPathStores(cfg, env, kind, q, st);
    assert BaseKey(cfg, env, kind, q') == BaseKey(cfg, env, kind, q);
    BaseCacheHit(cfg, env, kind, q', Storage(first.entries, writeFails));
  }

  /** Bypass: with the bypass flag neither cache tier is read, even when both hold entries. */
  lemma BypassReadsNothing(cfg: Config, env: Env, kind: string, q: Query, st: Storage)
    requires q.cb
    ensures Reads(ServeImage(cfg, env, kind, Some(q), st).trace) == []
  {
    MissTrace(cfg, env, kind, q, st);
  }

  /** Write failures are swallowed: which writes fail never changes the response. */
  lemma ResponseIgnoresWriteFailures(cfg: Config, env: Env, kind: string, parsed: Option<Query>,
                                     st: Storage, writeFails: set<Key>)
    ensures ServeImage(cfg, env, kind, parsed, st).response
         == ServeImage(cfg, env, kind, parsed, st.(writeFails := writeFails)).response
  {
  }

  /** A failing base write skips the sized write and leaves the store unchanged, while the
      answer has already been sent. */
  lemma BaseWriteFailureSkipsSizedWrite(cfg: Config, env: Env, kind: string, q: Query, st: Storage)
    requires q.cb || (SizedKey(env, kind, q) !in st.entries && BaseKey(cfg, env, kind, q) !in st.entries)
    requires BaseKey(cfg, env, kind, q) in st.writeFails
    ensures var r := ServeImage(cfg, env, kind, Some(q), st);
      r.response.Sent? ==>
        && Stores(r.trace) == [(BaseKey(cfg, env, kind, q), false)]
        && r.entries == st.entries
  {
    var r := ServeImage(cfg, env, kind, Some(q), st);
    if r.response.Sent? {
      var baseKey := BaseKey(cfg, env, kind, q);
      assert CachedBase(cfg, env, kind, q, st) == None;
      var base := BaseImage(cfg, env, kind, q, st).value;
      var resized := env.resize(base, q.w, q.h).value;
      var puts: seq<Event> := [Put(baseKey, false)];
      assert WriteBack(st.entries, st.writeFails, Writes(baseKey, None, base, SizedKey(env, kind, q), resized)).0 == puts;
      var before := Prelude(cfg, env, kind, q, st);
      assert r.trace == before + [Respond(resized)] + puts;
      AnsweredProjections(before, resized, puts);
      PreludeProjections(cfg, env, kind, q, st);
    }
  }

  /** The cache warms up: once an answer has been sent and its writes succeeded, the same
      request without the bypass flag is answered from the sized cache with the same bytes. */
  lemma CacheWarmsUp(cfg: Config, env: Env, kind: string, q: Query, st: Storage, writeFails: set<Key>)
    requires BaseKey(cfg, env, kind, q) !in st.writeFails && SizedKey(env, kind, q) !in st.writeFails
    requires ServeImage(cfg, env, kind, Some(q), st).response.Sent?
    ensures var first := ServeImage(cfg, env, kind, Some(q), st);
      var again := ServeImage(cfg, env, kind, Some(q.(cb := false)), Storage(first.entries, writeFails));
      && again.response == first.response
      && Calls(again.trace) == []
      && Stores(again.trace) == []
  {
    var first := ServeImage(cfg, env, kind, Some(q), st);
    var q' := q.(cb := false);
    var sizedKey := SizedKey(env, kind, q);
    assert SizedKey(env, kind, q') == sizedKey;
    if q.cb || sizedKey !in st.entries {
      var baseKey := BaseKey(cfg, env, kind, q);
      var base := BaseImage(cfg, env, kind, q, st).value;
      var resized := env.resize(base, q.w, q.h).value;
      var writes := Writes(baseKey, CachedBase(cfg, env, kind, q, st), base, sizedKey, resized);
      WriteBackStore(st.entries, st.writeFails, writes);
      assert writes[|writes| - 1] == (sizedKey, resized);
      assert first.response == Sent(resized);
    }
    assert sizedKey in first.entries && Sent(first.entries[sizedKey]) == first.response;
    SizedCacheShortCircuit(cfg, env, kind, q', Storage(first.entries, writeFails));
  }
}

=== FILE: resolution.dfy ===
/** Resolver choice and fan-out: every resolver registered for the image type is asked for the
    same (address, network), all answers are awaited, and the base image is the LAST truthy
    answer in registration order. */
module Resolution {
  import opened Types

  /** What one resolver call settles to: an image (any buffer, even an empty one, is truthy),
      a falsy answer, or a rejected promise. */
  datatype Resolved = Image(bytes: Bytes) | Nothing | Rejected

  /** The resolver list for a request: the token list for type "token", and the avatar list
      for every other type, recognised or not. */
  function ResolversFor(cfg: Config, kind: string): seq<ResolverName>
  {
    if kind == "token" then cfg.tokenResolvers else cfg.avatarResolvers
  }

  /** The answers of the resolvers `names`, in registration order. */
  function Gather(resolve: (ResolverName, string, string) -> Resolved, names: seq<ResolverName>,
                  address: string, network: string): seq<Resolved>
  {
    seq(|names|, i requires 0 <= i < |names| => resolve(names[i], address, network))
  }

  predicate AnyRejected(files: seq<Resolved>)
  {
    exists i | 0 <= i < |files| :: files[i].Rejected?
  }

  /** The forEach over the answers: each image overwrites what was kept so far. */
  function Overwrite(kept: Option<Bytes>, files: seq<Resolved>): Option<Bytes>
    decreases |files|
  {
    if |files| == 0 then kept
    else Overwrite(if files[0].Image? then Some(files[0].bytes) else kept, files[1..])
  }

  /** The base image chosen from the answers; `None` leaves it undefined. */
  function SelectBase(files: seq<Resolved>): Option<Bytes>
  {
    Overwrite(None, files)
  }

  /** Answer `i` is an image and no later answer is. */
  ghost predicate IsLastImage(files: seq<Resolved>, i: int)
  {
    0 <= i < |files| && files[i].Image? && forall j :: i < j < |files| ==> !files[j].Image?
  }

  lemma {:induction false} OverwriteWithoutImages(kept: Option<Bytes>, files: seq<Resolved>)
    requires forall j :: 0 <= j < |files| ==> !files[j].Image?
    ensures Overwrite(kept, files) == kept
    decreases |files|
  {
    if |files| > 0 {
      OverwriteWithoutImages(kept, files[1..]);
    }
  }

  lemma {:induction false} OverwriteKeepsLastImage(kept: Option<Bytes>, files: seq<Resolved>, i: int)
    requires IsLastImage(files, i)
    ensures Overwrite(kept, files) == Some(files[i].bytes)
    decreases |files|
  {
    if i == 0 {
      OverwriteWithoutImages(Some(files[0].bytes), files[1..]);
    } else {
      var next := if files[0].Image? then Some(files[0].bytes) else kept;
      assert IsLastImage(files[1..], i - 1);
      OverwriteKeepsLastImage(next, files[1..], i - 1);
    }
  }

  lemma {:induction false} OverwriteFindsSomeImage(kept: Option<Bytes>, files: seq<Resolved>, i: int)
    requires 0 <= i < |files| && files[i].Image?
    ensures Overwrite(kept, files).Some?
    decreases |files|
  {
    var next := if files[0].Image? then Some(files[0].bytes) else kept;
    if i == 0 {
      if exists j :: 1 <= j < |files| && files[j].Image? {
        var j :| 1 <= j < |files| && files[j].Image?;
        OverwriteFindsSomeImage(next, files[1..], j - 1);
      } else {
        OverwriteWithoutImages(next, files[1..]);
      }
    } else {
      OverwriteFindsSomeImage(next, files[1..], i - 1);
    }
  }

  /** Fan-out selection: the base image is absent exactly when no resolver produced one, and
      otherwise it is the image of the last resolver (in registration order) that did, so a
      later resolver's image replaces an earlier one's. */
  lemma SelectBaseIsLastImage(files: seq<Resolved>)
    ensures SelectBase(files).None? <==> forall j :: 0 <= j < |files| ==> !files[j].Image?
    ensures forall i :: IsLastImage(files, i) ==> SelectBase(files) == Some(files[i].bytes)
  {
    if forall j :: 0 <= j < |files| ==> !files[j].Image? {
      OverwriteWithoutImages(None, files);
    } else {
      var j :| 0 <= j < |files| && files[j].Image?;
      OverwriteFindsSomeImage(None, files, j);
    }
    forall i | IsLastImage(files, i)
      ensures SelectBase(files) == Some(files[i].bytes)
    {
      OverwriteKeepsLastImage(None, files, i);
    }
  }
}

=== FILE: types.dfy ===
/** Values shared by the key deriver, the GET pipeline and the eviction handler. */
module Types {

  /** The conventional Some/None datatype; `None` stands for an absent or falsy JavaScript value. */
  datatype Option<+T> = None | Some(value: T)

  newtype byte = x: int | 0 <= x < 256

  /** Image bytes, opaque to the model (webp or whatever a resolver produced). */
  type Bytes = seq<byte>

  /** A cache key: the hex digest the hash collaborator returns. */
  type Key = string

  /** Name of a registered resolver, as listed in the configuration. */
  type ResolverName = string

  /** One entry of the `sizes` list in the body of a delete request. */
  datatype Size = Size(w: nat, h: nat)

  /** What the query parser yields for one request: the identity, the requested size and the
      cache-bypass flag (`cb`, already reduced to its truthiness). */
  datatype Query = Query(address: string, network: string, w: nat, h: nat, cb: bool)

  /** The process-wide constants: the base (maximum) dimension and the ordered resolver
      lists registered for each image type. */
  datatype Config = Config(max: nat, avatarResolvers: seq<ResolverName>, tokenResolvers: seq<ResolverName>)

  /** The size every identity's base image is cached at. */
  function BaseSize(cfg: Config): Size
  {
    Size(cfg.max, cfg.max)
  }
}
